=== FILE: README.md ===
# Smart grocery assistant: the list state of the CRUD screens

The grocery assistant's screens (shopping list, budget, price comparison,
inventory) each keep an in-memory list of id-tagged records that mirrors a
document collection. A screen loads the collection once when it mounts.
After that it patches its own list whenever a write succeeds. An add
appends one record. An update replaces the records with the edited id. A
delete filters that id out. Three of the four screens guard their add
form with a small validation check; the inventory screen adds whatever is
typed, even nothing. The shopping list also has an edit mode: the item
being edited, plus the form.

This project models each screen as a pure reducer. It takes the state and
one event, and returns the next state plus the backend calls the handler
made. Each backend call is an abstract answer inside the event: `Ok(value)`
or `Err`. The value is a new document id, a download URL, the loaded
documents or `()`. So "no backend call" means the returned call list is
empty. "A failure changes nothing" means the state that comes back equals
the one that went in.

Each screen loads its collection with one one-shot query when it mounts
and holds no subscription. After that it changes its list only after its
own writes. No screen computes totals, filters or other views of its
list.

Files:
- `records.dfy` (module `Records`): records, documents, and the shared list rules (load, replace by id, remove by id), with their algebra.
- `backend.dfy` (module `Backend`): call outcomes, the calls a handler can issue, and `Step` (next state plus calls).
- `js.dfy` (module `Js`): the JavaScript values the form guards test, and their truthiness.
- `text.dfy` (module `Text`): `String.prototype.trim` over the ECMAScript white-space and line-terminator code points.
- `shopping_list.dfy`, `budget.dfy`, `price_comparison.dfy`, `inventory.dfy`: one reducer per screen.

A record is `Record(id, fields)`. It stands for the JavaScript object
`{...fields, id}`, and `AsObject` rebuilds that object. Field values are
strings, because every field the screens write is an input's value or a
download URL.

## Model

| member | source | states |
|---|---|---|
| Records.FromDoc | src/Components/Budget.js:15 | A loaded record carries the document id; as an object it is the stored data with its `id` field overridden by the document id |
| Records.LoadAll | src/Components/ShoppingList.js:18 | Loading yields exactly one record per document, in the order the documents came back |
| Records.LoadKeepsIds | src/Components/PriceComparison.js:15 | The id sequence of a loaded list is the sequence of document ids |
| Records.ReplaceById | src/Components/ShoppingList.js:74 | Replace keeps the length and order; every entry with the id becomes the new record, every other entry is identical |
| Records.ReplaceKeepsIds | src/Components/ShoppingList.js:74 | Replacing with a record of the targeted id leaves the id sequence unchanged |
| Records.ReplaceWithSame | src/Components/ShoppingList.js:74 | When every targeted entry already equals the new record, replace returns the list unchanged |
| Records.RemoveById | src/Components/ShoppingList.js:88 | An entry is in the result iff it was in the list and does not carry the id; the result is no longer than the list |
| Records.RemoveConcat | src/Components/Inventory.js:27 | Remove distributes over concatenation, so it keeps the surviving entries in their original order |
| Records.RemoveSingle | src/Components/Inventory.js:27 | On one entry, remove drops it iff it carries the id |
| Records.RemoveCount | src/Components/Inventory.js:27 | Every entry without the id keeps its number of occurrences; entries with the id occur zero times |
| Records.RemoveAbsent | src/Components/ShoppingList.js:88 | Removing an id that no entry carries returns the list unchanged |
| Records.RemoveIdempotent | src/Components/ShoppingList.js:88 | Removing an id twice equals removing it once |
| Records.AppendThenRemove | src/Components/Inventory.js:20-27 | Appending a record with a fresh id and then removing that id gives back the original list |
| Records.RemoveAfterReplace | src/Components/ShoppingList.js:74-88 | Removing an id after replacing it equals removing it directly |
| Records.LoadAppend | src/Components/ShoppingList.js:18 | Loading a collection with one more document at the end gives the old list plus that document's record |
| Records.LoadConcat | src/Components/ShoppingList.js:18 | Loading `a + b` gives the load of `a` followed by the load of `b` |
| Records.LoadPermutes | src/Components/ShoppingList.js:18 | Documents returned in any other order load to the same records, each as often: the order of a load does not change its contents |
| Records.RemoveMatchesReload | src/Components/ShoppingList.js:88 | Removing an id from a loaded list equals loading the collection without the documents that carry that id |
| Records.Field | src/Components/ShoppingList.js:99 | Reading `item[key]` as a string: the result is truthy exactly when the JavaScript value is, and equals it whenever the field is present |
| Records.Lookup | src/Components/ShoppingList.js:99 | `item[key]` is the string stored under the key in the record's object, or `undefined` when the key is absent |
| Records.AsObject | src/Components/ShoppingList.js:52 | The object form of a record has the record's id under `id` and every other field unchanged |
| Text.TrimStart | src/Components/Budget.js:27 | The result is a suffix of the input, the cut prefix is all white space, and the result does not start with white space |
| Text.TrimEnd | src/Components/Budget.js:27 | The result is a prefix of the input, the cut suffix is all white space, and the result does not end with white space |
| Text.IsWhitespace | src/Components/Budget.js:27 | The characters `trim` strips: the ECMAScript WhiteSpace and LineTerminator code points, listed one by one; among ASCII characters exactly space and TAB through CR |
| Text.Trim | src/Components/Budget.js:27 | The trimmed string is a contiguous slice `s[i..j]` of the input with only white space before `i` and after `j`; it neither starts nor ends with white space, and it is empty iff the input is all white space |
| Text.TrimIsSlice | src/Components/Budget.js:27 | Stripping the front and then the back cuts the input at two points with only white space outside them |
| Text.TrimEmptyIffBlank | src/Components/Budget.js:27 | Trimming both ends gives the empty string exactly when every character is white space |
| ShoppingList.Fetch | src/Components/ShoppingList.js:14-26 | One `getDocs` call; success replaces the list with the loaded records; failure keeps the list and sets "Failed to fetch items"; loading ends either way |
| ShoppingList.Filled | src/Components/ShoppingList.js:43 | The add guard holds iff none of name, quantity, category and image is falsy: every text field non-empty and a file picked |
| ShoppingList.ImagePath | src/Components/ShoppingList.js:30 | The storage path is `images/` followed by exactly the item name |
| ShoppingList.ImagePathSharedIffSameName | src/Components/ShoppingList.js:30 | Two uploads share a storage path iff the item names are equal, so a later upload under a used name overwrites that object |
| ShoppingList.ItemData | src/Components/ShoppingList.js:48-49 | The added document has exactly the keys name, quantity, category and image, no `id`; the text fields are as typed and the image is the download URL |
| ShoppingList.Payload | src/Components/ShoppingList.js:63-69 | The update payload is the captured item with the same id and every non-image field unchanged; the image changes only when a new URL exists |
| ShoppingList.AddItem | src/Components/ShoppingList.js:40-59 | Incomplete form: no call, no change. Otherwise the upload to `images/<name>` is always made, and the create of the form-with-URL document only when the upload succeeded. The list changes iff upload and create both succeed; then exactly one record is appended with the form fields, URL and new id, and the form resets; otherwise the state is unchanged |
| ShoppingList.UpdateItem | src/Components/ShoppingList.js:61-83 | The form is never touched. With no file picked the only call is the update of the captured item as it was; with a file, the upload to `images/<name>` comes first and the update, carrying the new URL, follows only when the upload succeeded. On success every entry with the captured id becomes the payload, the others are unchanged, and edit mode ends. Any failure changes nothing |
| ShoppingList.DeleteItem | src/Components/ShoppingList.js:85-94 | One `deleteDoc` call; on success the list is the filter of the old list by id (exactly the entries without the id survive, in order); on failure the list is unchanged |
| ShoppingList.Edit | src/Components/ShoppingList.js:96-100 | Edit mode holds the item; the form gets its name, quantity and category with no image; the list is untouched |
| ShoppingList.Cancel | src/Components/ShoppingList.js:102-106 | Leaves edit mode with the empty form and the list untouched |
| ShoppingList.FileChange | src/Components/ShoppingList.js:108-113 | No file picked leaves the state unchanged; otherwise only the form's image changes |
| ShoppingList.Next | src/Components/ShoppingList.js:118-157 | At most two calls per event. The list changes only on a successful load, an add whose create succeeded, an edit whose update succeeded, or a successful delete. A failed create (when adding) or update (when editing) changes nothing. Typing into the name, quantity or category box sets exactly that form field and nothing else; picking goes through `FileChange`, Edit through `Edit` and Cancel through `Cancel`; none of these makes a call |
| ShoppingList.TypedItemIsAdded | src/Components/ShoppingList.js:40-52 | Typing name, quantity and category, picking a file and submitting with every call succeeding appends exactly the typed values, with the download URL as the image |
| ShoppingList.IncompleteAddIsRejected | src/Components/ShoppingList.js:43-46 | Submitting an incomplete add form returns the same state and no call, whatever the backend would answer |
| ShoppingList.AddAppendsOne | src/Components/ShoppingList.js:48-54 | A successful add keeps the old list as a prefix and appends `{name, quantity, category, image: url, id}`, then resets the form |
| ShoppingList.AddThenDelete | src/Components/ShoppingList.js:48-88 | Deleting the id an add just created restores the list, when that id was fresh |
| ShoppingList.PatchesMatchReload | src/Components/ShoppingList.js:51-88 | After a successful add or delete, the patched list equals a reload of the collection with the new document returned last, or without the deleted one and the others in their old order |
| ShoppingList.PatchesMatchAnyReload | src/Components/ShoppingList.js:17-88 | After a successful add or delete, the patched list holds the same records, each as often, as a reload returning the resulting collection in any order |
| ShoppingList.UpdateIgnoresQuantityAndCategory | src/Components/ShoppingList.js:63-74 | While editing, the quantity and category typed into the form reach neither the calls nor the list |
| ShoppingList.UpdateNameOnlyChoosesUploadPath | src/Components/ShoppingList.js:63-74 | While editing, the typed name reaches nothing when no file is picked; with a file picked it chooses the upload path `images/<name>`, the rest of the calls is the same, and for the same download URL the lists agree |
| ShoppingList.EditTypeSubmitKeepsList | src/Components/ShoppingList.js:61-118 | Edit, type a new name, and submit with no file: the list is unchanged when the edited item is the only entry with its id |
| ShoppingList.EditThenCancel | src/Components/ShoppingList.js:96-106 | Edit then cancel leaves edit mode with the empty form and the same list |
| ShoppingList.DeleteKeepsOrder | src/Components/ShoppingList.js:88 | Deleting from `a + b` gives the deletion from `a` followed by the deletion from `b` |
| ShoppingList.FailedLoadFromInitial | src/Components/ShoppingList.js:8-22 | A failed first load leaves the list empty, ends loading and shows the fetch error |
| Budget.Fetch | src/Components/Budget.js:11-23 | One `getDocs` call; success yields one record per document with the document id overriding any stored `id`; failure keeps the list; loading ends either way |
| Budget.AddExpense | src/Components/Budget.js:25-40 | A blank field after trimming means no call and no change. Otherwise one `addDoc` of the untrimmed form. The list changes iff it succeeds; then one record is appended and the form clears; a failure changes nothing |
| Budget.Next | src/Components/Budget.js:45-62 | At most one call per event. The list changes only on a successful load or add. A failed add changes nothing. Typing into the name or amount box sets exactly that form field, with no call and nothing else changed |
| Budget.TypedExpenseIsAdded | src/Components/Budget.js:25-33 | Typing a name and an amount that are not white space alone and submitting with the create succeeding appends exactly the typed values |
| Budget.FilledIsTrimTest | src/Components/Budget.js:27 | The add guard `Budget.Filled` (neither field all white space) holds iff neither trimmed field is falsy |
| Budget.ExpenseData | src/Components/Budget.js:32-33 | The added document has exactly the keys name and amount, as typed and untrimmed, and no `id` |
| Budget.TrimmedTruthy | src/Components/Budget.js:27 | A field is truthy after `trim()` iff it is not all white space |
| Budget.AddMatchesReload | src/Components/Budget.js:32-33 | After a successful add, the locally patched list equals a reload of the collection that returns the new document last |
| Budget.AddMatchesAnyReload | src/Components/Budget.js:14-33 | After a successful add, the patched list holds the same records, each as often, as a reload returning the collection plus the new document in any order |
| Budget.SpacesAreRejected | src/Components/Budget.js:27-30 | A name of spaces alone is rejected with no call and no change |
| Budget.AddAppendsOne | src/Components/Budget.js:32-34 | A successful add keeps the old list as a prefix and appends `{name, amount, id}` as typed, then clears the form |
| Budget.FailedLoadFromInitial | src/Components/Budget.js:7-20 | A failed first load leaves the list empty and ends loading |
| PriceComparison.Fetch | src/Components/PriceComparison.js:11-21 | One `getDocs` call; success replaces the list with the loaded records; failure keeps the list and sets "Failed to fetch prices" |
| PriceComparison.AddPrice | src/Components/PriceComparison.js:23-37 | An empty field means no call and "Please fill in all fields". Otherwise one `addDoc`. Success appends one record and clears the form but keeps the old error. Failure sets "Failed to add price" and keeps the list and form |
| PriceComparison.Next | src/Components/PriceComparison.js:42-61 | At most one call per event. The list changes only on a successful load or add. The error only changes to a message, and only on load or submit. A failed add keeps the list and form. Typing into the item, price or store box sets exactly that form field, with no call and nothing else changed |
| PriceComparison.TypedPriceIsAdded | src/Components/PriceComparison.js:23-31 | Typing a non-empty item, price and store and submitting with the create succeeding appends exactly the typed values |
| PriceComparison.Filled | src/Components/PriceComparison.js:25 | The add guard holds iff none of item, price and store is falsy, i.e. none is the empty string; white space counts as filled |
| PriceComparison.PriceData | src/Components/PriceComparison.js:30-31 | The added document has exactly the keys item, price and store, as typed, and no `id` |
| PriceComparison.AddMatchesReload | src/Components/PriceComparison.js:30-31 | After a successful add, the patched list equals a reload of the collection that returns the new document last |
| PriceComparison.AddMatchesAnyReload | src/Components/PriceComparison.js:14-31 | After a successful add, the patched list holds the same records, each as often, as a reload returning the collection plus the new document in any order |
| PriceComparison.WhitespaceIsAccepted | src/Components/PriceComparison.js:25-31 | A form of single spaces passes the guard and is appended |
| PriceComparison.ErrorSurvivesSuccess | src/Components/PriceComparison.js:30-33 | A successful add leaves an earlier error message in place |
| PriceComparison.FailedLoadFromInitial | src/Components/PriceComparison.js:7-18 | A failed first load leaves the list empty and shows the fetch error |
| Inventory.Fetch | src/Components/Inventory.js:10-16 | One `getDocs` call; success replaces the list with the loaded records; a failure changes nothing |
| Inventory.AddItem | src/Components/Inventory.js:18-23 | No validation: one `addDoc` of `{name: input}`. Success appends that record with its id and clears the input. Failure changes nothing |
| Inventory.DeleteItem | src/Components/Inventory.js:25-29 | One `deleteDoc` call; on success exactly the entries without the id survive; a failure changes nothing |
| Inventory.Next | src/Components/Inventory.js:35-41 | At most one call per event. The list changes only on a successful load, add or delete. A failed add or delete changes nothing. Typing sets exactly the input, with no call |
| Inventory.TypedNameIsAdded | src/Components/Inventory.js:18-22 | Typing a name and adding with the create succeeding appends exactly `{name, id}` and clears the input |
| Inventory.EmptyNameIsAdded | src/Components/Inventory.js:18-20 | An empty input is still appended, as `{name: "", id}` at the end |
| Inventory.AddThenDelete | src/Components/Inventory.js:18-27 | Deleting the id an add just created restores the list, when that id was fresh |
| Inventory.PatchesMatchReload | src/Components/Inventory.js:19-27 | After a successful add or delete, the patched list equals a reload of the collection with the new document returned last, or without the deleted one and the others in their old order |
| Inventory.PatchesMatchAnyReload | src/Components/Inventory.js:12-27 | After a successful add or delete, the patched list holds the same records, each as often, as a reload returning the resulting collection in any order |
| Inventory.DeleteKeepsOthers | src/Components/Inventory.js:26-27 | After a delete, each entry without the id occurs as often as before and each entry with it occurs zero times |
| Inventory.DeleteTwice | src/Components/Inventory.js:27 | Deleting the same id twice equals deleting it once |

## Left out

- The backend calls are not modelled (`getDocs`, `addDoc`, `updateDoc`, `deleteDoc`, `uploadBytes`, `getDownloadURL`). Each is an outcome carried by the event. `uploadBytes` followed by `getDownloadURL` is one `Upload` call: either step failing gives one failure.
- The `firebaseConfig.js` client is set up for the Realtime Database, but the screens call Firestore functions. This is runtime setup, not list logic.
- Each handler runs atomically. The source captures `items` before an `await`, so overlapping handlers could lose an update. The model does not interleave handlers.
- Toasts, `console` logging, `preventDefault`, the rendering and the loading indicator's display are not modelled. `loading` is kept as state only on the two screens that have it.
- Amounts and prices are never parsed, summed or compared, so they stay strings.
- Field values are strings only. Stored documents with numbers or other values are outside the model.
- ShoppingList.Edit: a field missing from the edited item (JavaScript `undefined`) goes into the form as the empty string. Both are falsy, but `undefined` is not the same value. One visible consequence: updating such a nameless item with a new file uploads to `images/` in the model, while the template literal turns `undefined` into the path `images/undefined`.
- Budget.AddMatchesReload: compares the patched list with a reload that returns the new document last. A plain `getDocs` of a collection orders documents by id, and new ids are random, so a real reload may place entries elsewhere; for any order only the contents, each entry as often, are promised, by `Budget.AddMatchesAnyReload`.
- PriceComparison.AddMatchesReload: compares the patched list with a reload that returns the new document last. A plain `getDocs` of a collection orders documents by id, and new ids are random, so a real reload may place entries elsewhere; for any order only the contents, each entry as often, are promised, by `PriceComparison.AddMatchesAnyReload`.
- ShoppingList.PatchesMatchReload: compares the patched list with a reload that returns the new document last, or the survivors of a delete in their old order. A plain `getDocs` of a collection orders documents by id, and new ids are random, so a real reload may place entries elsewhere; for any order only the contents, each entry as often, are promised, by `ShoppingList.PatchesMatchAnyReload`.
- Inventory.PatchesMatchReload: compares the patched list with a reload that returns the new document last, or the survivors of a delete in their old order. A plain `getDocs` of a collection orders documents by id, and new ids are random, so a real reload may place entries elsewhere; for any order only the contents, each entry as often, are promised, by `Inventory.PatchesMatchAnyReload`.
- ShoppingList.UpdateNameOnlyChoosesUploadPath: the download URL is the upload's answer in the event, not a function of the storage path, so the lemma compares lists only for one and the same answer. In the running system a different name gives a different path and so a different URL in the list.
- ShoppingList.UpdateItem: an edited item without an `id` is not modelled, because records always carry one. Updating a document that was deleted meanwhile is just the write's `Err`.
- The recipe search, the login, sign-up and logout flows, the admin check, routing, the navigation bar and the confirmation modal are not part of this model. They are rendering, authentication or an external HTTP API, and the modal is never wired to a delete.

=== FILE: backend.dfy ===
/**
 The backend as the screens see it: every call either succeeds with a value
 or fails, and each handler reports the calls it issued. The document
 store and the file store themselves are not modelled.
 */
module Backend {
  import opened Records

  datatype Option<+T> = None | Some(value: T)

  /** What one backend call answered: a value (a new document id, a download
      URL, the loaded documents, or `()`) or a failure. */
  datatype Outcome<+T> = Ok(value: T) | Err

  /** A file picked in a file input; only its identity matters here. */
  datatype File = File(handle: string)

  /** The backend calls a handler can issue. `Upload` stands for the pair
      uploadBytes / getDownloadURL on one storage path. */
  datatype Call =
    | GetDocs(collection: string)
    | AddDoc(collection: string, data: Fields)
    | UpdateDoc(collection: string, id: Id, data: Fields)
    | DeleteDoc(collection: string, id: Id)
    | Upload(path: string, file: File)

  /** The result of handling one event: the next state and the backend
      calls made on the way, in order. */
  datatype Step<S> = Step(state: S, calls: seq<Call>)
}

=== FILE: budget.dfy ===
/**
 The budget screen as a reducer: the list of expenses, the two-field form,
 and the loading flag.
 */
module Budget {
  import opened Records
  import opened Backend
  import Text
  import Js

  const Collection: string := "budget"

  /** The `newExpense` form. Amounts stay strings: they are never parsed. */
  datatype Form = Form(name: string, amount: string)

  const EmptyForm: Form := Form("", "")

  /** `expenses`, `newExpense` and `loading`. */
  datatype State = State(expenses: seq<Record>, form: Form, loading: bool)

  const Initial: State := State([], EmptyForm, true)

  /** A user event, or the load finishing, with the backend's answer. */
  datatype Event =
    | Fetched(docs: Outcome<seq<Doc>>)
    | TypeName(name: string)
    | TypeAmount(amount: string)
    | Submit(write: Outcome<Id>)

  /** The add guard: neither field is white space alone. `FilledIsTrimTest`
      shows this is the negation of `!name.trim() || !amount.trim()`. */
  predicate Filled(f: Form)
  {
    !Text.Blank(f.name) && !Text.Blank(f.amount)
  }

  /** The guard fails exactly when the name or the amount is falsy once
      trimmed. */
  lemma FilledIsTrimTest(f: Form)
    ensures Filled(f) <==> !(!Js.Truthy(Js.Str(Text.Trim(f.name))) || !Js.Truthy(Js.Str(Text.Trim(f.amount))))
  {
    TrimmedTruthy(f.name);
    TrimmedTruthy(f.amount);
  }

  /** A field is truthy once trimmed exactly when it is not white space
      alone. */
  lemma TrimmedTruthy(x: string)
    ensures Js.Truthy(Js.Str(Text.Trim(x))) <==> !Text.Blank(x)
  {
    var r := Text.Trim(x);
    assert r == [] <==> Text.Blank(x);
  }

  /** The document written on add: the form's two keys as typed,
      untrimmed, with no `id`. */
  function ExpenseData(f: Form): (data: Fields)
    ensures data.Keys == {"name", "amount"} && IdKey !in data
    ensures data["name"] == f.name && data["amount"] == f.amount
  {
    map["name" := f.name, "amount" := f.amount]
  }

  /** The load on mount: the documents become the list; on failure the list
      stays as it was. Either way loading ends. */
  function Fetch(s: State, docs: Outcome<seq<Doc>>): (out: Step<State>)
    ensures out.calls == [GetDocs(Collection)]
    ensures !out.state.loading && out.state.form == s.form
    ensures docs.Ok? ==> |out.state.expenses| == |docs.value|
    ensures docs.Ok? ==> forall i :: 0 <= i < |docs.value| ==>
      && out.state.expenses[i].id == docs.value[i].id
      && AsObject(out.state.expenses[i]) == docs.value[i].data[IdKey := docs.value[i].id]
    ensures docs.Err? ==> out.state.expenses == s.expenses
  {
    match docs
    case Ok(ds) => Step(s.(expenses := LoadAll(ds), loading := false), [GetDocs(Collection)])
    case Err => Step(s.(loading := false), [GetDocs(Collection)])
  }

  /** `addExpense`: reject blank input without a call; otherwise create the
      document, append `{name, amount, id}` and clear the form. A failed
      create changes nothing. */
  function AddExpense(s: State, write: Outcome<Id>): (out: Step<State>)
    ensures out.state.loading == s.loading
    ensures !Filled(s.form) ==> out.state == s && out.calls == []
    ensures Filled(s.form) ==> out.calls == [AddDoc(Collection, ExpenseData(s.form))]
    ensures out.state.expenses != s.expenses <==> Filled(s.form) && write.Ok?
    ensures out.state.expenses != s.expenses ==>
      && out.state.expenses == s.expenses + [Record(write.value, ExpenseData(s.form))]
      && out.state.form == EmptyForm
    ensures out.state.expenses == s.expenses ==> out.state == s
  {
    if !Filled(s.form) then Step(s, [])
    else
      var data := ExpenseData(s.form);
      match write
      case Err => Step(s, [AddDoc(Collection, data)])
      case Ok(id) => Step(s.(expenses := s.expenses + [Record(id, data)], form := EmptyForm), [AddDoc(Collection, data)])
  }

  /** The whole screen: one event in, the next state and the calls out. */
  function Next(s: State, e: Event): (out: Step<State>)
    ensures |out.calls| <= 1
    ensures out.state.expenses != s.expenses ==> (e.Fetched? && e.docs.Ok?) || (e.Submit? && e.write.Ok?)
    ensures e.Submit? && e.write.Err? ==> out.state == s
    ensures e.TypeName? ==> out == Step(s.(form := s.form.(name := e.name)), [])
    ensures e.TypeAmount? ==> out == Step(s.(form := s.form.(amount := e.amount)), [])
  {
    match e
    case Fetched(docs) => Fetch(s, docs)
    case TypeName(v) => Step(s.(form := s.form.(name := v)), [])
    case TypeAmount(v) => Step(s.(form := s.form.(amount := v)), [])
    case Submit(write) => AddExpense(s, write)
  }

  /** Typing a name and an amount and submitting with the create
      succeeding appends exactly what was typed. */
  lemma TypedExpenseIsAdded(s: State, name: string, amount: string, id: Id)
    requires !Text.Blank(name) && !Text.Blank(amount)
    ensures var t := Next(Next(s, TypeName(name)).state, TypeAmount(amount)).state;
      Next(t, Submit(Ok(id))).state.expenses == s.expenses + [Record(id, map["name" := name, "amount" := amount])]
  {
  }

  /** A field of spaces alone is rejected, with no call. */
  lemma SpacesAreRejected(amount: string, write: Outcome<Id>)
    ensures var s := Initial.(form := Form("   ", amount));
      Next(s, Submit(write)) == Step(s, [])
  {
  }

  /** A successful add appends exactly one `{name, amount, id}` record at the
      end, carrying the name and amount as typed. */
  lemma AddAppendsOne(s: State, id: Id)
    requires Filled(s.form)
    ensures var t := Next(s, Submit(Ok(id))).state;
      && |t.expenses| == |s.expenses| + 1
      && t.expenses[..|s.expenses|] == s.expenses
      && AsObject(t.expenses[|s.expenses|]) == map["name" := s.form.name, "amount" := s.form.amount, "id" := id]
      && t.form == EmptyForm
  {
  }

  /** The list after a successful add is the list a reload would show if
      the backend returned the new document last. The backend picks its own
      order, so `AddMatchesAnyReload` states what holds for every order. */
  lemma AddMatchesReload(s: State, docs: seq<Doc>, id: Id)
    requires s.expenses == LoadAll(docs) && Filled(s.form)
    ensures Next(s, Submit(Ok(id))).state.expenses == LoadAll(docs + [Doc(id, ExpenseData(s.form))])
  {
    var d := Doc(id, ExpenseData(s.form));
    var out := AddExpense(s, Ok(id));
    assert Next(s, Submit(Ok(id))) == out;
    assert out.state.expenses == s.expenses + [Record(id, ExpenseData(s.form))];
    LoadAppend(docs, d);
    FromIdFreeDoc(id, ExpenseData(s.form));
  }

  /** Whatever order a reload returns the collection in, it shows the same
      entries, each as often, as the list patched by a successful add. */
  lemma AddMatchesAnyReload(s: State, docs: seq<Doc>, id: Id, reloaded: seq<Doc>)
    requires s.expenses == LoadAll(docs) && Filled(s.form)
    requires multiset(reloaded) == multiset(docs + [Doc(id, ExpenseData(s.form))])
    ensures multiset(Next(s, Submit(Ok(id))).state.expenses) == multiset(LoadAll(reloaded))
  {
    AddMatchesReload(s, docs, id);
    LoadPermutes(docs + [Doc(id, ExpenseData(s.form))], reloaded);
  }

  /** A failed load from the initial state leaves the list empty and ends
      loading. */
  lemma FailedLoadFromInitial()
    ensures var t := Next(Initial, Fetched(Err)).state;
      t.expenses == [] && !t.loading
  {
  }
}

=== FILE: inventory.dfy ===
/**
 The inventory screen as a reducer: the list of items and the single text
 input. Its handlers catch nothing, so a failed backend call aborts the
 handler before any state update.
 */
module Inventory {
  import opened Records
  import opened Backend

  const Collection: string := "inventory"

  /** `items` and `newItem`. */
  datatype State = State(items: seq<Record>, input: string)

  const Initial: State := State([], "")

  /** A user event, or the load finishing, with the backend's answer. */
  datatype Event =
    | Fetched(docs: Outcome<seq<Doc>>)
    | Type(text: string)
    | AddClicked(write: Outcome<Id>)
    | DeleteClicked(id: Id, done: Outcome<()>)

  /** The load on mount: the documents become the list; a failure is not
      caught and changes nothing. */
  function Fetch(s: State, docs: Outcome<seq<Doc>>): (out: Step<State>)
    ensures out.calls == [GetDocs(Collection)]
    ensures out.state.input == s.input
    ensures docs.Ok? ==> out.state.items == LoadAll(docs.value)
    ensures docs.Err? ==> out.state == s
  {
    match docs
    case Ok(ds) => Step(s.(items := LoadAll(ds)), [GetDocs(Collection)])
    case Err => Step(s, [GetDocs(Collection)])
  }

  /** `addItem`: no validation; create `{name: input}`, append it with its
      new id and clear the input. A failed create changes nothing. */
  function AddItem(s: State, write: Outcome<Id>): (out: Step<State>)
    ensures out.calls == [AddDoc(Collection, map["name" := s.input])]
    ensures write.Err? ==> out.state == s
    ensures write.Ok? ==>
      && out.state.items == s.items + [Record(write.value, map["name" := s.input])]
      && out.state.input == ""
  {
    var data := map["name" := s.input];
    match write
    case Err => Step(s, [AddDoc(Collection, data)])
    case Ok(id) => Step(State(s.items + [Record(id, data)], ""), [AddDoc(Collection, data)])
  }

  /** `deleteItem(id)`: delete the document, then drop every entry with that
      id. A failed delete changes nothing. */
  function DeleteItem(s: State, id: Id, done: Outcome<()>): (out: Step<State>)
    ensures out.calls == [DeleteDoc(Collection, id)]
    ensures out.state.input == s.input
    ensures done.Err? ==> out.state == s
    ensures done.Ok? ==> out.state.items == RemoveById(s.items, id)
    ensures done.Ok? ==> forall x :: x in out.state.items <==> x in s.items && x.id != id
  {
    match done
    case Err => Step(s, [DeleteDoc(Collection, id)])
    case Ok(_) => Step(s.(items := RemoveById(s.items, id)), [DeleteDoc(Collection, id)])
  }

  /** The whole screen: one event in, the next state and the calls out. */
  function Next(s: State, e: Event): (out: Step<State>)
    ensures |out.calls| <= 1
    ensures out.state.items != s.items ==>
      (e.Fetched? && e.docs.Ok?) || (e.AddClicked? && e.write.Ok?) || (e.DeleteClicked? && e.done.Ok?)
    ensures (e.AddClicked? && e.write.Err?) || (e.DeleteClicked? && e.done.Err?) ==> out.state == s
    ensures e.Type? ==> out == Step(s.(input := e.text), [])
  {
    match e
    case Fetched(docs) => Fetch(s, docs)
    case Type(v) => Step(s.(input := v), [])
    case AddClicked(write) => AddItem(s, write)
    case DeleteClicked(id, done) => DeleteItem(s, id, done)
  }

  /** Typing a name and adding with the create succeeding appends exactly
      `{name, id}` and clears the input. */
  lemma TypedNameIsAdded(s: State, name: string, id: Id)
    ensures var t := Next(Next(s, Type(name)).state, AddClicked(Ok(id))).state;
      t.items == s.items + [Record(id, map["name" := name])] && t.input == ""
  {
  }

  /** Even an empty input is added: the list grows by one `{name: "", id}`
      record at the end. */
  lemma EmptyNameIsAdded(s: State, id: Id)
    requires s.input == ""
    ensures var t := Next(s, AddClicked(Ok(id))).state;
      |t.items| == |s.items| + 1 && AsObject(t.items[|s.items|]) == map["name" := "", "id" := id]
  {
  }

  /** Deleting the id an add has just created restores the list and the
      cleared input, provided no earlier entry carried that id. */
  lemma AddThenDelete(s: State, id: Id)
    requires Fresh(s.items, id)
    ensures Next(Next(s, AddClicked(Ok(id))).state, DeleteClicked(id, Ok(()))).state == s.(input := "")
  {
    AppendThenRemove(s.items, Record(id, map["name" := s.input]));
  }

  /** After a successful add or delete the list is the one a reload would
      show if the backend returned the documents in the order the list
      holds them: the collection with the new document last, or without
      the deleted one. `PatchesMatchAnyReload` states what holds for every
      order the backend may pick. */
  lemma PatchesMatchReload(s: State, docs: seq<Doc>, id: Id, gone: Id)
    requires s.items == LoadAll(docs)
    ensures Next(s, AddClicked(Ok(id))).state.items == LoadAll(docs + [Doc(id, map["name" := s.input])])
    ensures Next(s, DeleteClicked(gone, Ok(()))).state.items == LoadAll(Without(docs, gone))
  {
    var data := map["name" := s.input];
    assert Next(s, AddClicked(Ok(id))).state.items == s.items + [Record(id, data)];
    LoadAppend(docs, Doc(id, data));
    FromIdFreeDoc(id, data);
    assert Next(s, DeleteClicked(gone, Ok(()))).state.items == RemoveById(s.items, gone);
    RemoveMatchesReload(docs, gone);
  }

  /** Whatever order a reload returns the collection in, it shows the same
      entries, each as often, as the list patched by a successful add or
      delete. */
  lemma PatchesMatchAnyReload(s: State, docs: seq<Doc>, id: Id, gone: Id, added: seq<Doc>, removed: seq<Doc>)
    requires s.items == LoadAll(docs)
    ensures multiset(added) == multiset(docs + [Doc(id, map["name" := s.input])]) ==>
      multiset(Next(s, AddClicked(Ok(id))).state.items) == multiset(LoadAll(added))
    ensures multiset(removed) == multiset(Without(docs, gone)) ==>
      multiset(Next(s, DeleteClicked(gone, Ok(()))).state.items) == multiset(LoadAll(removed))
  {
    PatchesMatchReload(s, docs, id, gone);
    if multiset(added) == multiset(docs + [Doc(id, map["name" := s.input])]) {
      LoadPermutes(docs + [Doc(id, map["name" := s.input])], added);
    }
    if multiset(removed) == multiset(Without(docs, gone)) {
      LoadPermutes(Without(docs, gone), removed);
    }
  }

  /** Deleting keeps the counts of the other entries: each entry without
      the id occurs as often as before, each with it not at all. */
  lemma DeleteKeepsOthers(s: State, id: Id, x: Record)
    ensures multiset(Next(s, DeleteClicked(id, Ok(()))).state.items)[x]
         == if x.id == id then 0 else multiset(s.items)[x]
  {
    RemoveCount(s.items, id, x);
  }

  /** Deleting the same id twice is the same as deleting it once. */
  lemma DeleteTwice(s: State, id: Id)
    ensures var once := Next(s, DeleteClicked(id, Ok(()))).state;
      Next(once, DeleteClicked(id, Ok(()))).state == once
  {
    RemoveIdempotent(s.items, id);
  }
}

=== FILE: js.dfy ===
/**
 The few JavaScript values the form guards test, and how `!` sees them:
 ToBoolean, section 7.1.2 of ECMA-262.
 */
module Js {

  /** A value a guard may test: `undefined`, `null`, a string, or an object
      (such as a picked File). */
  datatype Value = Undefined | Null | Str(s: string) | Object

  /** ToBoolean: `undefined`, `null` and the empty string are falsy; every
      other string and every object is truthy. */
  predicate Truthy(v: Value)
  {
    match v
    case Undefined => false
    case Null => false
    case Str(s) => s != ""
    case Object => true
  }
}

=== FILE: price_comparison.dfy ===
/**
 The price-comparison screen as a reducer: the list of prices, the
 three-field form, and the error message shown above the list.
 */
module PriceComparison {
  import opened Records
  import opened Backend
  import Js

  const Collection: string := "prices"
  const FetchFailed: string := "Failed to fetch prices"
  const MissingFields: string := "Please fill in all fields"
  const AddFailed: string := "Failed to add price"

  /** The `newPrice` form. Prices stay strings: they are never parsed. */
  datatype Form = Form(item: string, price: string, store: string)

  const EmptyForm: Form := Form("", "", "")

  /** `prices`, `newPrice` and `error`. */
  datatype State = State(prices: seq<Record>, form: Form, error: Option<string>)

  const Initial: State := State([], EmptyForm, None)

  /** A user event, or the load finishing, with the backend's answer. */
  datatype Event =
    | Fetched(docs: Outcome<seq<Doc>>)
    | TypeItem(item: string)
    | TypePrice(price: string)
    | TypeStore(store: string)
    | Submit(write: Outcome<Id>)

  /** The add guard: it fails when any of item, price or store is falsy.
      There is no trimming, so white space alone passes. */
  predicate Filled(f: Form): (ok: bool)
    ensures ok <==> !(|| !Js.Truthy(Js.Str(f.item)) || !Js.Truthy(Js.Str(f.price))
                      || !Js.Truthy(Js.Str(f.store)))
  {
    f.item != "" && f.price != "" && f.store != ""
  }

  /** The document written on add: the form's three keys, as typed, with
      no `id`. */
  function PriceData(f: Form): (data: Fields)
    ensures data.Keys == {"item", "price", "store"} && IdKey !in data
    ensures data["item"] == f.item && data["price"] == f.price && data["store"] == f.store
  {
    map["item" := f.item, "price" := f.price, "store" := f.store]
  }

  /** The load on mount: the documents become the list; a failure sets the
      error and leaves the list as it was. */
  function Fetch(s: State, docs: Outcome<seq<Doc>>): (out: Step<State>)
    ensures out.calls == [GetDocs(Collection)]
    ensures out.state.form == s.form
    ensures docs.Ok? ==> out.state.prices == LoadAll(docs.value) && out.state.error == s.error
    ensures docs.Err? ==> out.state.prices == s.prices && out.state.error == Some(FetchFailed)
  {
    match docs
    case Ok(ds) => Step(s.(prices := LoadAll(ds)), [GetDocs(Collection)])
    case Err => Step(s.(error := Some(FetchFailed)), [GetDocs(Collection)])
  }

  /** `addPrice`: an incomplete form sets the error without a call;
      otherwise create the document, append it and clear the form, leaving
      any earlier error shown. A failed create sets its own error. */
  function AddPrice(s: State, write: Outcome<Id>): (out: Step<State>)
    ensures !Filled(s.form) ==> out == Step(s.(error := Some(MissingFields)), [])
    ensures Filled(s.form) ==> out.calls == [AddDoc(Collection, PriceData(s.form))]
    ensures out.state.prices != s.prices <==> Filled(s.form) && write.Ok?
    ensures out.state.prices != s.prices ==>
      && out.state.prices == s.prices + [Record(write.value, PriceData(s.form))]
      && out.state.form == EmptyForm
      && out.state.error == s.error
    ensures out.state.prices == s.prices ==> out.state.form == s.form
    ensures Filled(s.form) && write.Err? ==> out.state.error == Some(AddFailed)
  {
    if !Filled(s.form) then Step(s.(error := Some(MissingFields)), [])
    else
      var data := PriceData(s.form);
      match write
      case Err => Step(s.(error := Some(AddFailed)), [AddDoc(Collection, data)])
      case Ok(id) => Step(s.(prices := s.prices + [Record(id, data)], form := EmptyForm), [AddDoc(Collection, data)])
  }

  /** The whole screen: one event in, the next state and the calls out. */
  function Next(s: State, e: Event): (out: Step<State>)
    ensures |out.calls| <= 1
    ensures out.state.prices != s.prices ==> (e.Fetched? && e.docs.Ok?) || (e.Submit? && e.write.Ok?)
    ensures out.state.error != s.error ==> out.state.error.Some? && (e.Fetched? || e.Submit?)
    ensures e.Submit? && e.write.Err? ==> out.state.prices == s.prices && out.state.form == s.form
    ensures e.TypeItem? ==> out == Step(s.(form := s.form.(item := e.item)), [])
    ensures e.TypePrice? ==> out == Step(s.(form := s.form.(price := e.price)), [])
    ensures e.TypeStore? ==> out == Step(s.(form := s.form.(store := e.store)), [])
  {
    match e
    case Fetched(docs) => Fetch(s, docs)
    case TypeItem(v) => Step(s.(form := s.form.(item := v)), [])
    case TypePrice(v) => Step(s.(form := s.form.(price := v)), [])
    case TypeStore(v) => Step(s.(form := s.form.(store := v)), [])
    case Submit(write) => AddPrice(s, write)
  }

  /** Typing an item, a price and a store and submitting with the create
      succeeding appends exactly what was typed. */
  lemma TypedPriceIsAdded(s: State, item: string, price: string, store: string, id: Id)
    requires item != "" && price != "" && store != ""
    ensures var t := Next(Next(Next(s, TypeItem(item)).state, TypePrice(price)).state, TypeStore(store)).state;
      Next(t, Submit(Ok(id))).state.prices == s.prices + [Record(id, map["item" := item, "price" := price, "store" := store])]
  {
  }

  /** The list after a successful add is the list a reload would show if
      the backend returned the new document last. The backend picks its own
      order, so `AddMatchesAnyReload` states what holds for every order. */
  lemma AddMatchesReload(s: State, docs: seq<Doc>, id: Id)
    requires s.prices == LoadAll(docs) && Filled(s.form)
    ensures Next(s, Submit(Ok(id))).state.prices == LoadAll(docs + [Doc(id, PriceData(s.form))])
  {
    LoadAppend(docs, Doc(id, PriceData(s.form)));
    FromIdFreeDoc(id, PriceData(s.form));
  }

  /** Whatever order a reload returns the collection in, it shows the same
      entries, each as often, as the list patched by a successful add. */
  lemma AddMatchesAnyReload(s: State, docs: seq<Doc>, id: Id, reloaded: seq<Doc>)
    requires s.prices == LoadAll(docs) && Filled(s.form)
    requires multiset(reloaded) == multiset(docs + [Doc(id, PriceData(s.form))])
    ensures multiset(Next(s, Submit(Ok(id))).state.prices) == multiset(LoadAll(reloaded))
  {
    AddMatchesReload(s, docs, id);
    LoadPermutes(docs + [Doc(id, PriceData(s.form))], reloaded);
  }

  /** White space alone is accepted: a form of single spaces is submitted. */
  lemma WhitespaceIsAccepted(s: State, id: Id)
    requires s.form == Form(" ", " ", " ")
    ensures Next(s, Submit(Ok(id))).state.prices == s.prices + [Record(id, map["item" := " ", "price" := " ", "store" := " "])]
  {
  }

  /** Once an error is shown, a later successful add does not clear it. */
  lemma ErrorSurvivesSuccess(s: State, id: Id)
    requires Filled(s.form)
    ensures Next(s.(error := Some(MissingFields)), Submit(Ok(id))).state.error == Some(MissingFields)
  {
  }

  /** A failed load from the initial state leaves the list empty and shows
      the fetch error. */
  lemma FailedLoadFromInitial()
    ensures var t := Next(Initial, Fetched(Err)).state;
      t.prices == [] && t.error == Some(FetchFailed)
  {
  }
}

=== FILE: records.dfy ===
/**
 The id-tagged records every screen keeps in memory, and the three list
 rules the screens share: load (`{...doc.data(), id: doc.id}`), replace by
 id (`items.map(...)`) and remove by id (`items.filter(...)`). Appending is
 plain sequence concatenation and needs no definition of its own.
 */
module Records {
  import Js

  type Id = string

  /** The loosely typed field map of a stored document. Every field the
      screens write is a string (an input's value or a download URL). */
  type Fields = map<string, string>

  /** The key under which a listed object carries its document id. */
  const IdKey: string := "id"

  /** A document as the backend hands it back: its id and its stored data. */
  datatype Doc = Doc(id: Id, data: Fields)

  /** One entry of a screen's list: the JavaScript object `{...fields, id}`,
      with the id kept apart so that every entry has one. */
  datatype Record = Record(id: Id, fields: Fields)

  /** The JavaScript object a record stands for. */
  function AsObject(r: Record): (o: Fields)
    ensures IdKey in o && o[IdKey] == r.id
    ensures o.Keys == r.fields.Keys + {IdKey}
    ensures forall k :: k in r.fields && k != IdKey ==> o[k] == r.fields[k]
  {
    r.fields[IdKey := r.id]
  }

  /** The JavaScript value of `r[key]`: the stored string, or `undefined`
      when the field is absent. */
  function Lookup(r: Record, key: string): (v: Js.Value)
    ensures key in AsObject(r) ==> v == Js.Str(AsObject(r)[key])
    ensures key !in AsObject(r) ==> v == Js.Undefined
  {
    if key == IdKey then Js.Str(r.id)
    else if key in r.fields then Js.Str(r.fields[key]) else Js.Undefined
  }

  /** Reads a field of a record as a string; an absent field (JavaScript
      `undefined`) reads as the empty string. The two agree on truthiness,
      and on every present field the string is the stored one. */
  function Field(r: Record, key: string): (v: string)
    ensures Js.Truthy(Js.Str(v)) <==> Js.Truthy(Lookup(r, key))
    ensures Lookup(r, key).Str? ==> v == Lookup(r, key).s
  {
    match Lookup(r, key)
    case Str(v) => v
    case _ => ""
  }

  /** The record built from one loaded document: `{...doc.data(), id: doc.id}`.
      The document id wins over any `id` field stored in the data. */
  function FromDoc(d: Doc): (r: Record)
    ensures r.id == d.id
    ensures AsObject(r) == d.data[IdKey := d.id]
    ensures IdKey !in r.fields
  {
    var r := Record(d.id, d.data - {IdKey});
    assert AsObject(r) == d.data[IdKey := d.id];
    r
  }

  /** The list a screen holds after a successful load: one record per
      document, in the order the backend returned them. */
  function LoadAll(docs: seq<Doc>): (items: seq<Record>)
    ensures |items| == |docs|
    ensures forall i :: 0 <= i < |docs| ==> items[i] == FromDoc(docs[i])
  {
    if docs == [] then [] else [FromDoc(docs[0])] + LoadAll(docs[1..])
  }

  /** The ids of a list, in order. */
  function Ids(items: seq<Record>): (ids: seq<Id>)
    ensures |ids| == |items|
    ensures forall i :: 0 <= i < |items| ==> ids[i] == items[i].id
  {
    if items == [] then [] else [items[0].id] + Ids(items[1..])
  }

  /** True when no entry of `items` carries `id`. */
  predicate Fresh(items: seq<Record>, id: Id)
  {
    forall x :: x in items ==> x.id != id
  }

  /** `items.map(item => item.id === id ? r : item)`. */
  function ReplaceById(items: seq<Record>, id: Id, r: Record): (out: seq<Record>)
    ensures |out| == |items|
    ensures forall i :: 0 <= i < |items| ==> out[i] == (if items[i].id == id then r else items[i])
  {
    if items == [] then []
    else [if items[0].id == id then r else items[0]] + ReplaceById(items[1..], id, r)
  }

  /** `items.filter(item => item.id !== id)`. */
  function RemoveById(items: seq<Record>, id: Id): (out: seq<Record>)
    ensures |out| <= |items|
    ensures forall x :: x in out <==> x in items && x.id != id
  {
    if items == [] then []
    else if items[0].id == id then RemoveById(items[1..], id)
    else [items[0]] + RemoveById(items[1..], id)
  }

  /** The documents a collection holds after the one with `id` is deleted. */
  function Without(docs: seq<Doc>, id: Id): (out: seq<Doc>)
    ensures forall d :: d in out <==> d in docs && d.id != id
  {
    if docs == [] then []
    else if docs[0].id == id then Without(docs[1..], id)
    else [docs[0]] + Without(docs[1..], id)
  }

  /** A document whose data has no `id` field loads as exactly that data
      under its id. */
  lemma FromIdFreeDoc(id: Id, data: Fields)
    requires IdKey !in data
    ensures FromDoc(Doc(id, data)) == Record(id, data)
  {
  }

  /** Loading a collection with one more document at the end gives the old
      list with that document's record appended. */
  lemma LoadAppend(docs: seq<Doc>, d: Doc)
    ensures LoadAll(docs + [d]) == LoadAll(docs) + [FromDoc(d)]
  {
  }

  /** Loading works document by document: the load of `a + b` is the load
      of `a` followed by the load of `b`. */
  lemma LoadConcat(a: seq<Doc>, b: seq<Doc>)
    ensures LoadAll(a + b) == LoadAll(a) + LoadAll(b)
  {
    forall i | 0 <= i < |a + b|
      ensures LoadAll(a + b)[i] == (LoadAll(a) + LoadAll(b))[i]
    {
      if i < |a| {
        assert (a + b)[i] == a[i];
      } else {
        assert (a + b)[i] == b[i - |a|];
      }
    }
  }

  /** The order a backend returns documents in does not change which
      records a load yields, nor how often: reordering the documents
      reorders the records. */
  lemma {:induction false} LoadPermutes(a: seq<Doc>, b: seq<Doc>)
    requires multiset(a) == multiset(b)
    ensures multiset(LoadAll(a)) == multiset(LoadAll(b))
  {
    if a == [] {
      assert b == [] by { assert |b| == |multiset(b)| == 0; }
    } else {
      assert a[0] in multiset(b);
      var k :| 0 <= k < |b| && b[k] == a[0];
      var rest := b[..k] + b[k + 1..];
      assert b == b[..k] + [b[k]] + b[k + 1..];
      assert a == [a[0]] + a[1..];
      calc {
        multiset(a[1..]);
        multiset(a) - multiset{a[0]};
        multiset(b) - multiset{b[k]};
        multiset(b[..k]) + multiset(b[k + 1..]);
        multiset(rest);
      }
      LoadPermutes(a[1..], rest);
      LoadConcat(b[..k] + [b[k]], b[k + 1..]);
      LoadConcat(b[..k], [b[k]]);
      LoadConcat(b[..k], b[k + 1..]);
      LoadConcat([a[0]], a[1..]);
    }
  }

  /** Removing an id from a loaded list gives the list a reload would give
      once that document is deleted. */
  lemma {:induction false} RemoveMatchesReload(docs: seq<Doc>, id: Id)
    ensures RemoveById(LoadAll(docs), id) == LoadAll(Without(docs, id))
  {
    if docs != [] {
      var items := LoadAll(docs);
      assert items[0] == FromDoc(docs[0]);
      assert items[1..] == LoadAll(docs[1..]);
      RemoveMatchesReload(docs[1..], id);
    }
  }

  /** Loading keeps the documents' ids, in order. */
  lemma LoadKeepsIds(docs: seq<Doc>)
    ensures Ids(LoadAll(docs)) == seq(|docs|, i requires 0 <= i < |docs| => docs[i].id)
  {
  }

  /** Replacing with a record that carries the targeted id keeps the id
      sequence: no entry moves, appears or disappears. */
  lemma ReplaceKeepsIds(items: seq<Record>, id: Id, r: Record)
    requires r.id == id
    ensures Ids(ReplaceById(items, id, r)) == Ids(items)
  {
  }

  /** Replacing when every targeted entry already equals the new record
      changes nothing. */
  lemma ReplaceWithSame(items: seq<Record>, id: Id, r: Record)
    requires forall x :: x in items && x.id == id ==> x == r
    ensures ReplaceById(items, id, r) == items
  {
  }

  /** Removal distributes over concatenation: it works element by element
      and never reorders, so together with `RemoveSingle` it pins the
      result down completely. */
  lemma {:induction false} RemoveConcat(a: seq<Record>, b: seq<Record>, id: Id)
    ensures RemoveById(a + b, id) == RemoveById(a, id) + RemoveById(b, id)
  {
    if a == [] {
      assert a + b == b;
    } else {
      assert (a + b)[0] == a[0];
      assert (a + b)[1..] == a[1..] + b;
      RemoveConcat(a[1..], b, id);
    }
  }

  /** Removal from a one-entry list. */
  lemma RemoveSingle(x: Record, id: Id)
    ensures RemoveById([x], id) == if x.id == id then [] else [x]
  {
  }

  /** Every entry without the id keeps its number of occurrences; every
      entry with it is gone. */
  lemma {:induction false} RemoveCount(items: seq<Record>, id: Id, x: Record)
    ensures multiset(RemoveById(items, id))[x] == if x.id == id then 0 else multiset(items)[x]
  {
    if items != [] {
      RemoveCount(items[1..], id, x);
      assert items == [items[0]] + items[1..];
      assert multiset(items) == multiset([items[0]]) + multiset(items[1..]);
    }
  }

  /** Removing an id no entry carries leaves the list as it was. */
  lemma {:induction false} RemoveAbsent(items: seq<Record>, id: Id)
    requires Fresh(items, id)
    ensures RemoveById(items, id) == items
  {
    if items != [] {
      assert items[0] in items;
      assert forall x :: x in items[1..] ==> x in items;
      RemoveAbsent(items[1..], id);
      assert items == [items[0]] + items[1..];
    }
  }

  /** Removing twice is removing once. */
  lemma RemoveIdempotent(items: seq<Record>, id: Id)
    ensures RemoveById(RemoveById(items, id), id) == RemoveById(items, id)
  {
  }

  /** Appending a record under a fresh id and then removing that id gives
      back the original list: remove undoes append. */
  lemma AppendThenRemove(items: seq<Record>, r: Record)
    requires Fresh(items, r.id)
    ensures RemoveById(items + [r], r.id) == items
  {
    RemoveConcat(items, [r], r.id);
    RemoveAbsent(items, r.id);
    RemoveSingle(r, r.id);
  }

  /** Removing an id after replacing it is the same as removing it
      directly: replace touches only the entries remove then drops. */
  lemma {:induction false} RemoveAfterReplace(items: seq<Record>, id: Id, r: Record)
    requires r.id == id
    ensures RemoveById(ReplaceById(items, id, r), id) == RemoveById(items, id)
  {
    if items != [] {
      var out := ReplaceById(items, id, r);
      assert out[0] == (if items[0].id == id then r else items[0]);
      assert out[1..] == ReplaceById(items[1..], id, r);
      RemoveAfterReplace(items[1..], id, r);
    }
  }
}

=== FILE: shopping_list.dfy ===
/**
 The shopping-list screen as a reducer: the list of items, the add/edit
 form, and which item (if any) is being edited. Each user event, together
 with what the backend answered to the calls it made, yields the next
 state and the calls issued.
 */
module ShoppingList {
  import opened Records
  import opened Backend
  import Js

  const Collection: string := "shoppingList"
  const FetchFailed: string := "Failed to fetch items"

  /** The form's image slot: nothing yet, or a file picked in the input. */
  datatype Image = NoImage | Chosen(file: File)

  /** The `newItem` form. */
  datatype Form = Form(name: string, quantity: string, category: string, image: Image)

  const EmptyForm: Form := Form("", "", "", NoImage)

  /** `items`, `newItem`, `editingItem`, `loading` and `error`. */
  datatype State = State(
    items: seq<Record>,
    form: Form,
    editing: Option<Record>,
    loading: bool,
    error: Option<string>)

  const Initial: State := State([], EmptyForm, None, true, None)

  /** A user event, or the load finishing, with the backend's answers to
      the calls it makes. On `Submit`, `upload` answers the image upload,
      `create` the document create of an add (carrying the new id) and
      `update` the document update of an edit; only the answers to calls
      actually made are read. */
  datatype Event =
    | Fetched(docs: Outcome<seq<Doc>>)
    | TypeName(name: string)
    | TypeQuantity(quantity: string)
    | TypeCategory(category: string)
    | PickFile(picked: Option<File>)
    | Submit(upload: Outcome<string>, create: Outcome<Id>, update: Outcome<()>)
    | EditClicked(item: Record)
    | CancelClicked
    | DeleteClicked(id: Id, done: Outcome<()>)

  /** The JavaScript value of the image slot: `null`, or a File object. */
  function ImageValue(i: Image): Js.Value
  {
    match i
    case NoImage => Js.Null
    case Chosen(_) => Js.Object
  }

  /** The add guard: it fails when any of name, quantity, category or image
      is falsy. */
  predicate Filled(f: Form): (ok: bool)
    ensures ok <==> !(|| !Js.Truthy(Js.Str(f.name)) || !Js.Truthy(Js.Str(f.quantity))
                      || !Js.Truthy(Js.Str(f.category)) || !Js.Truthy(ImageValue(f.image)))
  {
    f.name != "" && f.quantity != "" && f.category != "" && f.image.Chosen?
  }

  const ImageDir: string := "images/"

  /** The storage path an image is uploaded under: `images/${itemName}`.
      The item name is all that tells two paths apart. */
  function ImagePath(itemName: string): (path: string)
    ensures |path| == |ImageDir| + |itemName|
    ensures path[..|ImageDir|] == ImageDir && path[|ImageDir|..] == itemName
  {
    ImageDir + itemName
  }

  /** Two uploads share a storage path exactly when the item names are
      equal, so an item added under an existing name overwrites that
      item's stored image. */
  lemma ImagePathSharedIffSameName(a: string, b: string)
    ensures ImagePath(a) == ImagePath(b) <==> a == b
  {
    if ImagePath(a) == ImagePath(b) {
      assert a == ImagePath(a)[|ImageDir|..];
    }
  }

  /** The document written on add, `{...newItem, image: imageURL}`: exactly
      the form's four keys, the text fields as typed, the download URL in
      place of the file, and no `id`. */
  function ItemData(f: Form, url: string): (data: Fields)
    ensures data.Keys == {"name", "quantity", "category", "image"}
    ensures IdKey !in data
    ensures data["name"] == f.name && data["quantity"] == f.quantity && data["category"] == f.category
    ensures data["image"] == url
  {
    map["name" := f.name, "quantity" := f.quantity, "category" := f.category, "image" := url]
  }

  /** The record `updateItem` writes and lists: the item captured when Edit
      was clicked, with only its image replaced, and only when a new file
      was uploaded. */
  function Payload(captured: Record, newImage: Option<string>): (p: Record)
    ensures p.id == captured.id
    ensures p.fields - {"image"} == captured.fields - {"image"}
    ensures newImage.None? ==> p == captured
    ensures newImage.Some? ==> "image" in p.fields && p.fields["image"] == newImage.value
  {
    match newImage
    case None => captured
    case Some(url) => Record(captured.id, captured.fields["image" := url])
  }

  /** The load on mount: the documents become the list; a failure sets the
      error and leaves the list as it was. Either way loading ends. */
  function Fetch(s: State, docs: Outcome<seq<Doc>>): (out: Step<State>)
    ensures out.calls == [GetDocs(Collection)]
    ensures !out.state.loading
    ensures out.state.form == s.form && out.state.editing == s.editing
    ensures docs.Ok? ==> out.state.items == LoadAll(docs.value) && out.state.error == s.error
    ensures docs.Err? ==> out.state.items == s.items && out.state.error == Some(FetchFailed)
  {
    match docs
    case Ok(ds) => Step(s.(items := LoadAll(ds), loading := false), [GetDocs(Collection)])
    case Err => Step(s.(loading := false, error := Some(FetchFailed)), [GetDocs(Collection)])
  }

  /** `addItem`: validate, upload the image, create the document, append it
      and reset the form. Any failure leaves the state as it was. */
  function AddItem(s: State, upload: Outcome<string>, create: Outcome<Id>): (out: Step<State>)
    ensures out.state.editing == s.editing && out.state.loading == s.loading && out.state.error == s.error
    ensures !Filled(s.form) ==> out.state == s && out.calls == []
    ensures Filled(s.form) && upload.Err? ==> out.calls == [Upload(ImagePath(s.form.name), s.form.image.file)]
    ensures Filled(s.form) && upload.Ok? ==>
      out.calls == [Upload(ImagePath(s.form.name), s.form.image.file), AddDoc(Collection, ItemData(s.form, upload.value))]
    ensures out.state.items != s.items <==> Filled(s.form) && upload.Ok? && create.Ok?
    ensures out.state.items != s.items ==>
      && out.state.items == s.items + [Record(create.value, ItemData(s.form, upload.value))]
      && out.state.form == EmptyForm
    ensures out.state.items == s.items ==> out.state == s
  {
    if !Filled(s.form) then Step(s, [])
    else
      var up := Upload(ImagePath(s.form.name), s.form.image.file);
      match upload
      case Err => Step(s, [up])
      case Ok(url) =>
        var data := ItemData(s.form, url);
        var calls := [up, AddDoc(Collection, data)];
        match create
        case Err => Step(s, calls)
        case Ok(id) => Step(s.(items := s.items + [Record(id, data)], form := EmptyForm), calls)
  }

  /** `updateItem(captured)`: upload a newly picked image (under the form's
      current name), write the payload, replace every entry with the
      captured id, and leave edit mode. The form is left as it is; on any
      failure nothing changes. */
  function UpdateItem(s: State, captured: Record, upload: Outcome<string>, write: Outcome<()>): (out: Step<State>)
    ensures out.state.form == s.form && out.state.loading == s.loading && out.state.error == s.error
    ensures s.form.image.NoImage? ==> out.calls == [UpdateDoc(Collection, captured.id, AsObject(captured))]
    ensures s.form.image.Chosen? && upload.Err? ==> out.calls == [Upload(ImagePath(s.form.name), s.form.image.file)]
    ensures s.form.image.Chosen? && upload.Ok? ==>
      out.calls == [Upload(ImagePath(s.form.name), s.form.image.file),
                    UpdateDoc(Collection, captured.id, AsObject(Payload(captured, Some(upload.value))))]
    ensures !(write.Ok? && (s.form.image.NoImage? || upload.Ok?)) ==> out.state == s
    ensures write.Ok? && (s.form.image.NoImage? || upload.Ok?) ==>
      var newImage := if s.form.image.Chosen? then Some(upload.value) else None;
      && out.state.editing == None
      && |out.state.items| == |s.items|
      && (forall i :: 0 <= i < |s.items| ==>
            out.state.items[i] == (if s.items[i].id == captured.id then Payload(captured, newImage) else s.items[i]))
  {
    match s.form.image
    case NoImage =>
      var p := Payload(captured, None);
      var calls := [UpdateDoc(Collection, captured.id, AsObject(p))];
      if write.Err? then Step(s, calls)
      else Step(s.(items := ReplaceById(s.items, captured.id, p), editing := None), calls)
    case Chosen(file) =>
      var up := Upload(ImagePath(s.form.name), file);
      match upload
      case Err => Step(s, [up])
      case Ok(url) =>
        var p := Payload(captured, Some(url));
        var calls := [up, UpdateDoc(Collection, captured.id, AsObject(p))];
        if write.Err? then Step(s, calls)
        else Step(s.(items := ReplaceById(s.items, captured.id, p), editing := None), calls)
  }

  /** `deleteItem(id)`: delete the document, then drop every entry with
      that id. On failure nothing changes. */
  function DeleteItem(s: State, id: Id, done: Outcome<()>): (out: Step<State>)
    ensures out.calls == [DeleteDoc(Collection, id)]
    ensures out.state.form == s.form && out.state.editing == s.editing
    ensures out.state.loading == s.loading && out.state.error == s.error
    ensures done.Err? ==> out.state.items == s.items
    ensures done.Ok? ==> out.state.items == RemoveById(s.items, id)
    ensures done.Ok? ==> forall x :: x in out.state.items <==> x in s.items && x.id != id
  {
    var after := if done.Ok? then RemoveById(s.items, id) else s.items;
    Step(s.(items := after), [DeleteDoc(Collection, id)])
  }

  /** `handleEdit(item)`: enter edit mode for the item and copy its name,
      quantity and category into the form, with no image picked. A field
      the item lacks is copied as the empty string, not as `undefined`. */
  function Edit(s: State, item: Record): (t: State)
    ensures t.editing == Some(item)
    ensures t.form.image == NoImage
    ensures t.form.name == Field(item, "name") && t.form.quantity == Field(item, "quantity")
    ensures t.form.category == Field(item, "category")
    ensures t.items == s.items && t.loading == s.loading && t.error == s.error
  {
    s.(editing := Some(item),
       form := Form(Field(item, "name"), Field(item, "quantity"), Field(item, "category"), NoImage))
  }

  /** `cancelEdit`: leave edit mode and clear the form. */
  function Cancel(s: State): (t: State)
    ensures t.editing == None && t.form == EmptyForm
    ensures t.items == s.items && t.loading == s.loading && t.error == s.error
  {
    s.(editing := None, form := EmptyForm)
  }

  /** `handleFileChange`: with a file picked, only the image slot changes;
      with none, nothing does. */
  function FileChange(s: State, picked: Option<File>): (t: State)
    ensures picked.None? ==> t == s
    ensures picked.Some? ==> t == s.(form := s.form.(image := Chosen(picked.value)))
  {
    match picked
    case None => s
    case Some(f) => s.(form := s.form.(image := Chosen(f)))
  }

  /** The whole screen: one event in, the next state and the calls out.
      Submitting updates while an item is being edited and adds otherwise. */
  function Next(s: State, e: Event): (out: Step<State>)
    ensures |out.calls| <= 2
    ensures out.state.items != s.items ==>
      || (e.Fetched? && e.docs.Ok?)
      || (e.Submit? && s.editing.None? && e.create.Ok?)
      || (e.Submit? && s.editing.Some? && e.update.Ok?)
      || (e.DeleteClicked? && e.done.Ok?)
    ensures e.Submit? && (if s.editing.None? then e.create.Err? else e.update.Err?) ==> out.state == s
    ensures !e.Fetched? && !e.Submit? && !e.DeleteClicked? ==> out.calls == []
    ensures e.TypeName? ==> out == Step(s.(form := s.form.(name := e.name)), [])
    ensures e.TypeQuantity? ==> out == Step(s.(form := s.form.(quantity := e.quantity)), [])
    ensures e.TypeCategory? ==> out == Step(s.(form := s.form.(category := e.category)), [])
    ensures e.PickFile? ==> out == Step(FileChange(s, e.picked), [])
    ensures e.EditClicked? ==> out == Step(Edit(s, e.item), [])
    ensures e.CancelClicked? ==> out == Step(Cancel(s), [])
  {
    match e
    case Fetched(docs) => Fetch(s, docs)
    case TypeName(v) => Step(s.(form := s.form.(name := v)), [])
    case TypeQuantity(v) => Step(s.(form := s.form.(quantity := v)), [])
    case TypeCategory(v) => Step(s.(form := s.form.(category := v)), [])
    case PickFile(picked) => Step(FileChange(s, picked), [])
    case Submit(upload, create, update) =>
      (match s.editing
       case Some(captured) => UpdateItem(s, captured, upload, update)
       case None => AddItem(s, upload, create))
    case EditClicked(item) => Step(Edit(s, item), [])
    case CancelClicked => Step(Cancel(s), [])
    case DeleteClicked(id, done) => DeleteItem(s, id, done)
  }

  /** Submitting an incomplete add form issues no call and changes nothing,
      whatever the backend would have answered. */
  lemma IncompleteAddIsRejected(s: State, upload: Outcome<string>, create: Outcome<Id>, update: Outcome<()>)
    requires s.editing == None && !Filled(s.form)
    ensures Next(s, Submit(upload, create, update)) == Step(s, [])
  {
  }

  /** A fully successful add appends exactly one record, at the end,
      carrying the form fields, the download URL and the new id, and resets
      the form. */
  lemma AddAppendsOne(s: State, url: string, id: Id, update: Outcome<()>)
    requires s.editing == None && Filled(s.form)
    ensures var t := Next(s, Submit(Ok(url), Ok(id), update)).state;
      && |t.items| == |s.items| + 1
      && t.items[..|s.items|] == s.items
      && t.items[|s.items|] == Record(id, ItemData(s.form, url))
      && AsObject(t.items[|s.items|]) == map["name" := s.form.name, "quantity" := s.form.quantity,
                                            "category" := s.form.category, "image" := url, "id" := id]
      && t.form == EmptyForm
  {
  }

  /** After a successful add or delete the list is the one a reload would
      show if the backend returned the documents in the order the list
      holds them: the collection with the new document last, or without
      the deleted one. `PatchesMatchAnyReload` states what holds for every
      order the backend may pick. */
  lemma PatchesMatchReload(s: State, docs: seq<Doc>, url: string, id: Id, update: Outcome<()>, gone: Id)
    requires s.items == LoadAll(docs)
    ensures s.editing == None && Filled(s.form) ==>
      Next(s, Submit(Ok(url), Ok(id), update)).state.items == LoadAll(docs + [Doc(id, ItemData(s.form, url))])
    ensures Next(s, DeleteClicked(gone, Ok(()))).state.items == LoadAll(Without(docs, gone))
  {
    if s.editing == None && Filled(s.form) {
      assert Next(s, Submit(Ok(url), Ok(id), update)).state.items == s.items + [Record(id, ItemData(s.form, url))];
      LoadAppend(docs, Doc(id, ItemData(s.form, url)));
      FromIdFreeDoc(id, ItemData(s.form, url));
    }
    assert Next(s, DeleteClicked(gone, Ok(()))).state.items == RemoveById(s.items, gone);
    RemoveMatchesReload(docs, gone);
  }

  /** Deleting the id an add has just created restores the list, provided
      no earlier entry carried that id. */
  lemma AddThenDelete(s: State, url: string, id: Id, update: Outcome<()>)
    requires s.editing == None && Filled(s.form) && Fresh(s.items, id)
    ensures Next(Next(s, Submit(Ok(url), Ok(id), update)).state, DeleteClicked(id, Ok(()))).state.items == s.items
  {
    AppendThenRemove(s.items, Record(id, ItemData(s.form, url)));
  }

  /** Typing a name, quantity and category, picking a file and submitting
      with every call succeeding appends exactly what was typed, with the
      download URL as the image. */
  lemma TypedItemIsAdded(s: State, name: string, quantity: string, category: string, file: File,
                         url: string, id: Id, update: Outcome<()>)
    requires s.editing == None && name != "" && quantity != "" && category != ""
    ensures var t := Next(Next(Next(Next(s, TypeName(name)).state, TypeQuantity(quantity)).state,
                                    TypeCategory(category)).state, PickFile(Some(file))).state;
      Next(t, Submit(Ok(url), Ok(id), update)).state.items
        == s.items + [Record(id, map["name" := name, "quantity" := quantity, "category" := category, "image" := url])]
  {
  }

  /** Whatever order a reload returns the collection in, it shows the same
      entries, each as often, as the list patched by a successful add or
      delete. */
  lemma PatchesMatchAnyReload(s: State, docs: seq<Doc>, url: string, id: Id, update: Outcome<()>, gone: Id,
                              added: seq<Doc>, removed: seq<Doc>)
    requires s.items == LoadAll(docs)
    ensures s.editing == None && Filled(s.form) && multiset(added) == multiset(docs + [Doc(id, ItemData(s.form, url))]) ==>
      multiset(Next(s, Submit(Ok(url), Ok(id), update)).state.items) == multiset(LoadAll(added))
    ensures multiset(removed) == multiset(Without(docs, gone)) ==>
      multiset(Next(s, DeleteClicked(gone, Ok(()))).state.items) == multiset(LoadAll(removed))
  {
    PatchesMatchReload(s, docs, url, id, update, gone);
    if s.editing == None && Filled(s.form) && multiset(added) == multiset(docs + [Doc(id, ItemData(s.form, url))]) {
      LoadPermutes(docs + [Doc(id, ItemData(s.form, url))], added);
    }
    if multiset(removed) == multiset(Without(docs, gone)) {
      LoadPermutes(Without(docs, gone), removed);
    }
  }

  /** While an item is being edited, the quantity and category typed into
      the form reach neither the backend nor the list: only the captured
      item and a picked image make up the payload. */
  lemma UpdateIgnoresQuantityAndCategory(s: State, captured: Record, quantity: string, category: string,
                                         upload: Outcome<string>, create: Outcome<Id>, update: Outcome<()>)
    requires s.editing == Some(captured)
    ensures var typed := s.(form := s.form.(quantity := quantity, category := category));
      var a, b := Next(typed, Submit(upload, create, update)), Next(s, Submit(upload, create, update));
      a.calls == b.calls && a.state.items == b.state.items && a.state.editing == b.state.editing
  {
  }

  /** While an item is being edited, the name typed into the form reaches
      nothing when no file is picked. With a file picked it chooses the
      storage path of the upload, and so, through the download URL the
      upload answers, the image of the updated entry; for one and the same
      answer the resulting lists agree. */
  lemma UpdateNameOnlyChoosesUploadPath(s: State, captured: Record, name: string,
                                        upload: Outcome<string>, create: Outcome<Id>, update: Outcome<()>)
    requires s.editing == Some(captured)
    ensures var typed := s.(form := s.form.(name := name));
      var a, b := Next(typed, Submit(upload, create, update)), Next(s, Submit(upload, create, update));
      && (s.form.image.NoImage? ==> a.calls == b.calls && a.state.items == b.state.items)
      && (s.form.image.Chosen? ==>
            && a.calls[0] == Upload(ImagePath(name), s.form.image.file)
            && a.calls[1..] == b.calls[1..]
            && a.state.items == b.state.items)
  {
  }

  /** Clicking Edit on a listed item, typing anything, and submitting
      without picking a file writes the captured item back unchanged, so the
      list is the same as before, when that item is the only one with its
      id. */
  lemma EditTypeSubmitKeepsList(s: State, item: Record, name: string,
                                 upload: Outcome<string>, create: Outcome<Id>)
    requires item in s.items
    requires forall x :: x in s.items && x.id == item.id ==> x == item
    ensures var edited := Next(Next(s, EditClicked(item)).state, TypeName(name)).state;
      Next(edited, Submit(upload, create, Ok(()))).state.items == s.items
  {
  }

  /** Edit followed by Cancel leaves edit mode with an empty form and the
      list untouched, from whatever state the screen was in. */
  lemma EditThenCancel(s: State, item: Record)
    ensures var t := Next(Next(s, EditClicked(item)).state, CancelClicked).state;
      t.editing == None && t.form == EmptyForm && t.items == s.items
  {
  }

  /** Deleting keeps the surviving entries in their original order: the
      result is the entry-by-entry filter of the list. */
  lemma DeleteKeepsOrder(s: State, id: Id, a: seq<Record>, b: seq<Record>)
    requires s.items == a + b
    ensures Next(s, DeleteClicked(id, Ok(()))).state.items
         == Next(s.(items := a), DeleteClicked(id, Ok(()))).state.items
          + Next(s.(items := b), DeleteClicked(id, Ok(()))).state.items
  {
    var done: Outcome<()> := Ok(());
    assert Next(s, DeleteClicked(id, done)).state.items == RemoveById(a + b, id);
    assert Next(s.(items := a), DeleteClicked(id, done)).state.items == RemoveById(a, id);
    assert Next(s.(items := b), DeleteClicked(id, done)).state.items == RemoveById(b, id);
    RemoveConcat(a, b, id);
  }

  /** A failed load from the initial state leaves the list empty, ends
      loading and shows the fetch error. */
  lemma FailedLoadFromInitial()
    ensures var t := Next(Initial, Fetched(Err)).state;
      t.items == [] && !t.loading && t.error == Some(FetchFailed)
  {
  }
}

=== FILE: text.dfy ===
/**
 `String.prototype.trim`, as the budget form uses it to reject blank input.
 It strips the ECMAScript WhiteSpace and LineTerminator code points from
 both ends (section 22.1.3.32 of ECMA-262, with the code point sets of
 sections 12.2 and 12.3).
 */
module Text {

  /** The code points `trim` strips: TAB, VT, FF, SPACE, NBSP, ZWNBSP, the
      Unicode space separators, and the four line terminators. Among the
      ASCII characters these are exactly space and TAB through CR. */
  predicate IsWhitespace(c: char): (ok: bool)
    ensures c < '\U{0080}' ==> (ok <==> c == ' ' || '\t' <= c <= '\r')
  {
    || c == '\t' || c == '\U{000B}' || c == '\U{000C}' || c == ' '
    || c == '\U{00A0}' || c == '\U{FEFF}'
    || c == '\U{1680}' || ('\U{2000}' <= c <= '\U{200A}')
    || c == '\U{202F}' || c == '\U{205F}' || c == '\U{3000}'
    || c == '\n' || c == '\r' || c == '\U{2028}' || c == '\U{2029}'
  }

  /** Every character of `s` is white space (true of the empty string). */
  predicate Blank(s: string)
  {
    forall i :: 0 <= i < |s| ==> IsWhitespace(s[i])
  }

  /** `s` without its leading white space. */
  function TrimStart(s: string): (r: string)
    ensures |r| <= |s| && r == s[|s| - |r|..]
    ensures Blank(s[..|s| - |r|])
    ensures r == [] || !IsWhitespace(r[0])
  {
    if s == [] || !IsWhitespace(s[0]) then s else TrimStart(s[1..])
  }

  /** `s` without its trailing white space. */
  function TrimEnd(s: string): (r: string)
    ensures |r| <= |s| && r == s[..|r|]
    ensures Blank(s[|r|..])
    ensures r == [] || !IsWhitespace(r[|r| - 1])
  {
    if s == [] || !IsWhitespace(s[|s| - 1]) then s else TrimEnd(s[..|s| - 1])
  }

  /** `s.trim()`: a contiguous slice of `s` that neither starts nor ends with
      white space, and is empty exactly when `s` is blank. */
  function Trim(s: string): (r: string)
    ensures exists i, j :: 0 <= i <= j <= |s| && r == s[i..j] && Blank(s[..i]) && Blank(s[j..])
    ensures r == [] || (!IsWhitespace(r[0]) && !IsWhitespace(r[|r| - 1]))
    ensures r == [] <==> Blank(s)
  {
    var t := TrimStart(s);
    var r := TrimEnd(t);
    TrimEmptyIffBlank(s, t, r);
    TrimIsSlice(s, t, r);
    r
  }

  /** Stripping the front and then the back cuts `s` at `|s| - |t|` and
      `|s| - |t| + |r|`, with white space alone on either side. */
  lemma TrimIsSlice(s: string, t: string, r: string)
    requires |t| <= |s| && t == s[|s| - |t|..] && Blank(s[..|s| - |t|])
    requires |r| <= |t| && r == t[..|r|] && Blank(t[|r|..])
    ensures var i, j := |s| - |t|, |s| - |t| + |r|;
      0 <= i <= j <= |s| && r == s[i..j] && Blank(s[..i]) && Blank(s[j..])
  {
    var i := |s| - |t|;
    SliceOfSuffix(s, i, |r|);
    assert s[i + |r|..] == t[|r|..];
  }

  /** Cutting the suffix `s[i..]` at `m` cuts `s` at `i + m`. */
  lemma SliceOfSuffix(s: string, i: nat, m: nat)
    requires i + m <= |s|
    ensures s[i..][..m] == s[i..i + m] && s[i..][m..] == s[i + m..]
  {
  }

  /** The trimmed string is empty exactly when the input is blank. */
  lemma TrimEmptyIffBlank(s: string, t: string, r: string)
    requires t == TrimStart(s) && r == TrimEnd(t)
    ensures r == [] <==> Blank(s)
  {
    if r == [] {
      assert t[|r|..] == t;
      assert s == s[..|s| - |t|] + t;
    } else {
      assert t != [];
      assert !IsWhitespace(t[0]);
      assert t[0] == s[|s| - |t|];
    }
  }
}
